=== FILE: README.md ===
# Push-up counter core in Dafny

A model of the core of the push-up counter application. It has five parts:

- **`PoseDetector`** (`pose_detector.dfy`, `angle.dfy`). The detector's state is a rep counter, a stage (`None`, `"down"`, `"up"`) and a frame count. Every third non-`None` frame is analysed, after frames wider than 640 pixels are scaled down. An analysed frame goes through two angle rules: an extended arm and leg arms the rep, and a bent arm completes it. The joint angle is the difference of two `atan2` directions folded onto [0, 180] degrees.
- **`UserManager`** (`user_manager.dfy`). The user store is a map from user name to password hash, training sessions, total reps and best session. It covers registration, authentication, appending a session and the statistics (totals, average, ten newest sessions).
- **`CameraHandler`** (`camera_handler.dfy`). The handler keeps running, paused, device-handle and settings flags. It has start, stop, pause, resume, switch and configuration operations, plus one iteration of the capture loop: frame-rate gating, reads and mirroring of the front camera.
- **`MainScreen`** (`main_screen.dfy`). The detection session is which detector and camera handler exist, whether detection is on, and the session's high-water count that is saved when detection ends. It reacts to the start/stop button, camera frames, uploaded video, camera switching, counter reset and leaving the screen.
- **`RegisterScreen`** (`register_screen.dfy`). The form validation strips the fields and checks them in a fixed order (empty, mismatch, length), then hands off to registration.

The program's oracles become parameters:

- the pose estimator is an `Estimate` per analysed frame;
- `atan2` is a function in degrees;
- the password hash is a function `string -> string`;
- the clock is an integer or real supplied by the caller;
- whether a device or video opens is a `bool`;
- what a device read returns is a `Read` value.

Frames are reduced to their dimensions and a mirrored flag.

Places where the code does something other than its names suggest; the model follows the code:

- The constructor sets `max_leg_angle = 160` and `min_leg_angle = 150`, but the rules never read them. They use the literals 160 (arm the rep) and 180 (count it), which the model names `PoseDetector.DownLegAngle` and `PoseDetector.UpLegBound`; the two unread fields are not modelled.
- A failed `start_capture` still replaces the handle with an unopened one, so `is_camera_available` is then false.
- A frame wider than 640 whose height scales to less than one pixel (for example 1000x1) makes the resize raise before the frame is counted (in exact arithmetic; the float product can also reach 0 at the edge, see "## Left out"). The exception leaves `process_frame` (`PoseDetector.ResizeRaises`, the `escaped` flag of `PoseDetector.ProcessFrame`). During video playback `process_video_frame` catches it and stops the schedule without saving and with detection still on.
- Pressing stop during video playback saves the session, and the frame timer, still scheduled, saves the same count again at the end of the file (`MainScreen.StopThenEndOfVideoSavesTwice`).

## Model

| member | source | states |
|---|---|---|
| Types.Flip | utils/camera_handler.py:198-199 | mirroring keeps a frame's dimensions and toggles its orientation |
| Types.FlipInvolutive | utils/camera_handler.py:198-199 | mirroring twice gives back the original frame |
| Angle.Fold | core/pose_detector.py:76-80 | the folded angle is at most 180 and is either the absolute difference or its reflection around 360 |
| Angle.JointAngle | core/pose_detector.py:58-82 | the angle at the vertex is at most 180 degrees, and never negative when `atan2` returns values in (-180, 180] (`InHalfTurn`, nothing more) |
| Angle.FoldRange | core/pose_detector.py:73-82 | any difference of two directions in (-360, 360) folds onto [0, 180] |
| Angle.FoldOdd | core/pose_detector.py:76 | folding forgets the sign of the difference, so the direction of traversal does not matter |
| Angle.JointAngleRange | core/pose_detector.py:58-82 | with any `atan2` whose values lie in (-180, 180] (`InHalfTurn`, nothing more), every joint angle is in [0, 180] degrees |
| Angle.JointAngleSymmetric | core/pose_detector.py:58-82 | swapping the two outer points does not change the angle at the vertex |
| Angle.JointsAnglesRange | core/pose_detector.py:190-194 | with any `atan2` whose values lie in (-180, 180], the arm angle (shoulder, elbow, wrist) and the leg angle (hip, knee, ankle) given to the rules are both in [0, 180] |
| Angle.JointAngleFixtures | test_app.py:111-123 | a right angle measures 90, a straight line 180 and a ray folded back onto itself 0 |
| PoseDetector.Init | core/pose_detector.py:35-47 | a new detector has no reps, no stage and has seen no frames |
| PoseDetector.Reset | core/pose_detector.py:252-255 | a reset clears the reps and the stage from any state and leaves the sampling phase alone |
| PoseDetector.Step | core/pose_detector.py:196-203 | an extended arm and leg (above 160 and 160) moves to Down; the counter rises, by exactly one and into Up, if and only if the detector was in Down and the arm is below 80 with the leg below 180; otherwise nothing changes |
| PoseDetector.Downscale | core/pose_detector.py:137-142 | the resize fails exactly when a frame is wider than 640 and its scaled height, computed exactly, truncates to 0; otherwise a wider frame comes out 640 wide with a positive height scaled by the same ratio and truncated (bounded on both sides), and narrower frames are untouched |
| PoseDetector.ProcessFrame | core/pose_detector.py:123-224 | a `None` frame changes nothing; a frame whose resize fails escapes as an exception with the detector unchanged and not counted; every other frame is downscaled and counted; only frames whose count is a multiple of three are analysed; the report is what a registered callback receives (a detector built without a callback delivers none): with no landmarks it carries angles 0 and the unchanged state, an estimator exception skips the rules and the report, and it always carries the detector's new counter and stage |
| PoseDetector.Run | core/pose_detector.py:123-224 | over any stream of frames the counter and the frame count never decrease |
| PoseDetector.RunFrameCount | core/pose_detector.py:133-147 | the frame count advances exactly once per non-`None` frame whose resize does not fail |
| PoseDetector.SampledCount | core/pose_detector.py:145-147 | over counted frames (present, resize not failing), the analysed ones are exactly the multiples of three the frame count passes through |
| PoseDetector.ReachedIsSampled | core/pose_detector.py:133-147 | the frames the detector's own gate lets through along a run are exactly those counted from its starting frame count at the multiples of three |
| PoseDetector.OneInThree | core/pose_detector.py:145-147 | of any three consecutive counted frames the detector analyses exactly one |
| PoseDetector.NoDoubleCount | core/pose_detector.py:196-203 | a detector not in Down never counts again until an extended posture is seen, however often the arm bends |
| PoseDetector.RepsNeedExtension | core/pose_detector.py:196-203 | a stream adds at most one rep per extended posture it carries, plus one if the detector was already armed |
| PoseDetector.RunAppend | core/pose_detector.py:123-224 | processing a stream in two pieces is processing it in one |
| PoseDetector.ThreeFrames | core/pose_detector.py:145-147 | from a frame count that is a multiple of three, of the next three frames only the third reaches the rules |
| PoseDetector.OneCycle | core/pose_detector.py:196-203 | one push-up filmed over nine frames (five extended, four bent) adds exactly one rep and ends in Up |
| PoseDetector.ThreeCycles | core/pose_detector.py:196-203 | three such push-ups from a fresh detector count exactly three |
| UserManager.SumCountsAppend | core/user_manager.py:115 | appending a session adds its count to the sum of counts |
| UserManager.MaxCountAppend | core/user_manager.py:116 | appending a session takes the maximum of the old best and its count |
| UserManager.MaxCountIsMax | core/user_manager.py:116 | the best session bounds every count and is one of them unless it is 0 |
| UserManager.NewUser | core/user_manager.py:72-80 | a new account stores the password's hash, has no sessions and has aggregates that agree with its sessions |
| UserManager.Register | core/user_manager.py:64-86 | an empty user name or password fails first with the empty-field message; an existing name fails with the duplicate message; otherwise exactly that one entry is added; existing entries and the aggregate invariant are kept |
| UserManager.Authenticate | core/user_manager.py:88-96 | an unknown user is never authenticated |
| UserManager.RegisterThenAuthenticate | core/user_manager.py:64-96 | after a successful registration the same password authenticates |
| UserManager.RegisterRejectsOtherPassword | core/user_manager.py:64-96 | with a collision-free hash, no other password authenticates the new user |
| UserManager.RegisterKeepsLogins | core/user_manager.py:64-96 | registering leaves every existing user's logins as they were |
| UserManager.GetUserInfo | core/user_manager.py:98-100 | a known user's record is returned, and nothing for an unknown one |
| UserManager.GetUserInfoAfterRegister | core/user_manager.py:64-100 | after a successful registration the new user's information is the fresh account, and every other user's is unchanged |
| UserManager.AddPushupRecord | core/user_manager.py:102-120 | an unknown user fails and changes nothing; otherwise the session is appended, the total grows by its count, the best becomes the larger of the two, the user's hash, name and creation time stay, and every other user is untouched |
| UserManager.AddPushupRecordValid | core/user_manager.py:102-120 | adding a session keeps the total equal to the sum of the counts and the best equal to their maximum |
| UserManager.Insert | core/user_manager.py:145 | inserting into a newest-first list keeps it newest first and adds exactly that session |
| UserManager.SortByDateDesc | core/user_manager.py:145 | the sort orders the sessions newest first and is a permutation of them |
| UserManager.TopOfSorted | core/user_manager.py:145 | a prefix of a newest-first list holds sessions no older than any left out |
| UserManager.Recent | core/user_manager.py:144-145 | at most ten sessions are listed, newest first, drawn from the user's sessions, and none left out is newer than one listed |
| UserManager.GetUserStatistics | core/user_manager.py:122-153 | unknown users get nothing; users without sessions get zeros; otherwise the session count, the stored total and best (equal to the sum and maximum of the counts when the aggregates are consistent), the average as total over sessions and the newest sessions |
| UserManager.ThreeSessionsFixture | test_app.py:72-96 | sessions of 15, 20 and 10 give a total of 45 over three sessions, a best of 20 and an average of 15 |
| CameraHandler.New | utils/camera_handler.py:36-52 | a new handler has no device, is neither running nor paused, and records 30 fps at 640x480 |
| CameraHandler.Available | utils/camera_handler.py:254-256 | a camera is available exactly when a device handle exists and that handle reports itself open; what makes it so is pinned by the contracts of `CameraHandler.StartCapture`, `CameraHandler.GetCameraInfo` and `CameraHandler.CameraInfoLifecycle` |
| CameraHandler.StartCapture | utils/camera_handler.py:65-112 | start succeeds exactly when the device opens, and then the handler is running, unpaused and available; a failure leaves an unopened handle and the flags as they were |
| CameraHandler.StopCapture | utils/camera_handler.py:114-125 | stop clears the running flag and releases the device, leaving the settings alone |
| CameraHandler.PauseCapture | utils/camera_handler.py:129-132 | pause sets the paused flag and nothing else |
| CameraHandler.ResumeCapture | utils/camera_handler.py:134-137 | resume clears the paused flag and nothing else |
| CameraHandler.PauseResumeRoundTrip | utils/camera_handler.py:129-137 | pausing then resuming an unpaused handler, or resuming then pausing a paused one, gives it back unchanged |
| CameraHandler.SwitchCamera | utils/camera_handler.py:211-223 | the index flips between 0 and 1; a stopped handler changes only its index; a running one is restarted on the new index, runs again exactly when that device opens, and is then unpaused, while a failed restart leaves the paused flag as it was |
| CameraHandler.SwitchTwiceStopped | utils/camera_handler.py:211-223 | switching a stopped handler twice restores it exactly |
| CameraHandler.SwitchTwiceRunning | utils/camera_handler.py:211-223 | switching a running handler twice, with both devices opening, returns it to its camera running and unpaused |
| CameraHandler.SetResolution | utils/camera_handler.py:225-239 | the requested size is always recorded, is passed to the device exactly when one is available, and nothing else changes |
| CameraHandler.SetFps | utils/camera_handler.py:241-252 | the requested rate is always recorded, is passed to the device exactly when one is available, and nothing else changes |
| CameraHandler.GetCameraInfo | utils/camera_handler.py:258-268 | information exists exactly when a device is available, and then it is the device's report together with the index |
| CameraHandler.CameraInfoLifecycle | utils/camera_handler.py:36-268 | a new handler has no device information; after a start it exists exactly when the device opened, and names the handler's index; after a stop it is gone; pausing, resuming and the setters do not change it |
| CameraHandler.OrientFrame | utils/camera_handler.py:196-199 | frames are mirrored exactly when the index is that of the front camera, with dimensions kept |
| CameraHandler.FrameInterval | utils/camera_handler.py:141 | the frame interval is the reciprocal of the rate and does not exist for a zero rate |
| CameraHandler.CaptureTick | utils/camera_handler.py:139-181 | a frame is delivered exactly when the handler is running, not paused, a full interval has passed, a device is available and the read succeeds; the loop exits exactly when stopped or when a due read finds no device; nothing but a delivery changes the state or the last-frame time |
| CameraHandler.DeliveriesSpaced | utils/camera_handler.py:141-171 | delivered frames are at least one frame interval apart, and the first is at least one interval after the last one before |
| CameraHandler.CaptureLoop | utils/camera_handler.py:139-181 | a whole loop run with a zero rate delivers nothing; otherwise the first frame comes at least 1/fps after the loop starts and each later one at least 1/fps after the one before |
| CameraHandler.PausedDeliversNothing | utils/camera_handler.py:144-148 | a paused handler delivers no frames however long the loop runs |
| MainScreen.Initial | screens/main_screen.py:33-41 | a new screen has no detector, no camera, detection off and a count of zero |
| MainScreen.OnFrameCallback | screens/main_screen.py:235-247 | the session count becomes the larger of itself and the reported count, and nothing else changes |
| MainScreen.Analyse | screens/main_screen.py:235-247 | feeding a frame through the detector keeps the session count at or above the detector's count, and exactly equal if it was equal; a frame whose resize raises leaves the session as it was |
| MainScreen.StartDetection | screens/main_screen.py:256-286 | without permission nothing happens; otherwise a fresh detector and a handler on camera 0 are installed, and only if capture starts is detection switched on with the count cleared |
| MainScreen.StopDetection | screens/main_screen.py:288-315 | detection ends with the camera and detector dropped; the count is saved exactly when a detector was live and the count is positive |
| MainScreen.OnStartDetection | screens/main_screen.py:249-254 | the button starts detection when it is off and stops it when it is on |
| MainScreen.OnCameraFrame | screens/main_screen.py:317-323 | a frame is analysed only when both a detector and a frame exist, and the session count never falls |
| MainScreen.StartVideo | screens/main_screen.py:399-423 | a new detector is always installed; the count is cleared and detection switched on only when the file opens |
| MainScreen.ProcessVideoFrame | screens/main_screen.py:425-453 | the end of the file stops detection, drops the detector and saves a positive count; any other frame is analysed like a camera frame; scheduling goes on exactly while frames come and the detector does not raise; a raising frame stops the schedule with nothing saved and the session unchanged, detection still on |
| MainScreen.OnSwitchCamera | screens/main_screen.py:455-461 | the camera is switched only while a handler exists and detection is on |
| MainScreen.OnResetCounter | screens/main_screen.py:463-472 | the session count and any detector are reset together, leaving them in step |
| MainScreen.OnLeave | screens/main_screen.py:530-536 | leaving the screen stops a running detection |
| MainScreen.SaveSessionResult | screens/main_screen.py:325-339 | the count is added to the logged-in user's sessions, and nothing is saved without a user |
| MainScreen.SaveSessionResultValid | screens/main_screen.py:325-339 | saving a session result keeps every user's total and best consistent with their sessions |
| MainScreen.ApplyKeepsInv | screens/main_screen.py:235-536 | every event keeps the session count at or above the detector's count and saves only positive counts |
| MainScreen.ReplayKeepsInv | screens/main_screen.py:235-536 | over any sequence of events the session count stays at or above the detector's count and every saved count is positive |
| MainScreen.SyncedStep | screens/main_screen.py:235-472 | once the session count equals the detector's count, frames, resets, switches and successful starts keep them equal |
| MainScreen.StopThenEndOfVideoSavesTwice | screens/main_screen.py:288-436 | stopping a running session with a positive count and then reaching the end of the video saves the same count twice, because the end-of-file save at lines 435-436 has no detector guard |
| MainScreen.StopSavesDetectorCount | screens/main_screen.py:288-315 | when the two are in step, stopping saves exactly the detector's rep count if it is positive |
| RegisterScreen.StripLeft | screens/register_screen.py:191-194 | left stripping keeps a suffix of the text that does not start with whitespace |
| RegisterScreen.StripRight | screens/register_screen.py:191-194 | right stripping keeps a prefix of the text that does not end with whitespace |
| RegisterScreen.StripLeftDropsSpaces | screens/register_screen.py:191-194 | every character left stripping removes is whitespace |
| RegisterScreen.StripRightDropsSpaces | screens/register_screen.py:191-194 | every character right stripping removes is whitespace |
| RegisterScreen.Strip | screens/register_screen.py:191-194 | a stripped field is no longer than the input and neither starts nor ends with whitespace |
| RegisterScreen.StripIsInfix | screens/register_screen.py:191-194 | a stripped field is an infix of the input with only whitespace before and after it |
| RegisterScreen.StripIdempotent | screens/register_screen.py:191-194 | stripping twice is stripping once |
| RegisterScreen.Validate | screens/register_screen.py:196-210 | an empty stripped user name, password or confirmation fails first; then differing passwords; then a password shorter than 6; otherwise the stripped user name and password are submitted |
| RegisterScreen.ValidateIgnoresName | screens/register_screen.py:189-210 | the display name never affects validation |
| RegisterScreen.ValidateIgnoresPadding | screens/register_screen.py:191-210 | surrounding whitespace never affects validation |
| RegisterScreen.SubmittedNeverEmpty | screens/register_screen.py:196-214 | input that passes validation never trips the store's empty-field check, so registration then succeeds exactly when the name is free |
| RegisterScreen.OnRegisterPress | screens/register_screen.py:189-223 | registration is called exactly when validation passes, with the stripped user name and password; otherwise the check's message is shown; on success the success message is shown, on failure the store's message |
| RegisterScreen.Cleared | screens/register_screen.py:230-236 | clearing empties every field, so the cleared form fails the empty-field check |

## Left out

- Pose estimation (MediaPipe landmarks), deblurring, histogram equalisation, colour conversion and the drawing of landmarks and counters. The estimator is an oracle returning the two angles, no pose, or an exception.
- The pixel content of frames. A frame is only its dimensions and a mirrored flag.
- PoseDetector.Downscale: the height is the exact floor of `height * 640 / width`. The program computes `int(height * (640 / width))` in floating point, and that product can land just below an integer: for a 716x537 frame the program gets 479 where the model gets 480 (likewise 772x579 and 805x161). The program's height can then be one less than the model's. When that one-less height is 0 the program's resize raises on a frame the model accepts and counts: for 31360x49, `int(49 * (640 / 31360))` is 0 while the exact quotient is 1 (likewise 62720x98). `PoseDetector.ResizeRaises` is therefore the exact-arithmetic condition.
- Floating-point angles. `atan2` is a parameter over the reals. Only its range and its values on the axes are assumed.
- PoseDetector.ProcessFrame: an exception raised after the rules have run (while drawing, or inside the callback) is not modelled. The model treats an estimator exception as raised before the rules.
- UserManager.GetUserStatistics: the average is the exact quotient, not `round(average, 1)`.
- UserManager.Authenticate: its own contract states only the unknown-user case. The known-user case (the stored hash must equal the hash of the password) is stated by `UserManager.RegisterThenAuthenticate`, `UserManager.RegisterRejectsOtherPassword` and `UserManager.RegisterKeepsLogins`.
- UserManager.Recent: the stability of Python's sort among sessions with equal dates is not proved. Only the order, the permutation and the top-ten property are.
- Session dates are ISO timestamp strings in the program. They are modelled as integers supplied by the caller; both order the same way.
- The JSON file (loading and saving users), SHA-256 (the hash is a parameter) and `datetime.now()` (the clock is a parameter).
- CameraHandler.StartCapture: an exception inside `initialize_camera` is merged with a device that does not open. Calling start on an already running handler is not distinguished.
- The capture thread, its sleeps, the join on stop and the frame callback thread. `CameraHandler.CaptureTick` models one loop iteration and `CameraHandler.DeliveryTimes` a sequence of them.
- `get_current_frame` and `set_frame_callback` are plain accessors.
- MainScreen.OnCameraFrame: the choice of which image to display is not modelled. A frame whose resize raises leaves the session unchanged; the exception itself escapes the camera's scheduled callback, and what the application does with it then is not modelled.
- Widgets, popups, Kivy's `Clock.schedule_*`, the file chooser, the Android permission request, fonts, and the login and result screens. The application's `register_user`, which `main.py` does not define, is not part of this model. It is a parameter of `RegisterScreen.OnRegisterPress`, and `RegisterScreen.SubmittedNeverEmpty` assumes it forwards to `UserManager.register` with the default display name.
- MainScreen.OnLeave: `on_logout_press` is modelled only up to stopping detection. Logging out and switching screens are not modelled.

=== FILE: angle.dfy ===
/** Joint-angle geometry of `PoseDetector.calculate_angle`
    (core/pose_detector.py): the angle at vertex `b` between the rays
    `b->a` and `b->c`, folded into [0, 180] degrees. */
module Angle {

  /** A point of the image plane. */
  datatype Point = Point(x: real, y: real)

  /** The six landmarks the counting rules read: left shoulder, elbow and
      wrist give the arm angle, left hip, knee and ankle the leg angle. */
  datatype Joints = Joints(shoulder: Point, elbow: Point, wrist: Point,
                           hip: Point, knee: Point, ankle: Point)

  /** `atan2` cannot be computed over the reals, so it is a parameter.
      The range facts need only its values to lie in (-180, 180]. */
  ghost predicate InHalfTurn(atan2: (real, real) -> real)
  {
    forall y, x :: -180.0 < atan2(y, x) <= 180.0
  }

  /** An `atan2` in (-180, 180] that also agrees with the true arctangent
      on the axes, where its value is exact (numpy's `arctan2(0, 0)` is 0). */
  ghost predicate IsAtan2Deg(atan2: (real, real) -> real)
  {
    && InHalfTurn(atan2)
    && atan2(0.0, 0.0) == 0.0
    && (forall x :: x > 0.0 ==> atan2(0.0, x) == 0.0)
    && (forall x :: x < 0.0 ==> atan2(0.0, x) == 180.0)
    && (forall y :: y > 0.0 ==> atan2(y, 0.0) == 90.0)
    && (forall y :: y < 0.0 ==> atan2(y, 0.0) == -90.0)
  }

  function Abs(d: real): (r: real)
    ensures r >= 0.0 && (r == d || r == -d)
  {
    if d < 0.0 then -d else d
  }

  /** Folds a signed difference of two directions, in degrees, onto the
      unsigned angle between them: take the absolute value and reflect
      anything above 180 around 360. */
  function Fold(d: real): (r: real)
    ensures r <= 180.0
    ensures r == Abs(d) || r == 360.0 - Abs(d)
  {
    var a := Abs(d);
    if a > 180.0 then 360.0 - a else a
  }

  /** The angle at `b` formed by `a`, `b` and `c`. */
  function JointAngle(atan2: (real, real) -> real, a: Point, b: Point, c: Point): (r: real)
    ensures r <= 180.0
    ensures InHalfTurn(atan2) ==> 0.0 <= r
  {
    Fold(atan2(c.y - b.y, c.x - b.x) - atan2(a.y - b.y, a.x - b.x))
  }

  function ArmAngle(atan2: (real, real) -> real, j: Joints): real
  {
    JointAngle(atan2, j.shoulder, j.elbow, j.wrist)
  }

  function LegAngle(atan2: (real, real) -> real, j: Joints): real
  {
    JointAngle(atan2, j.hip, j.knee, j.ankle)
  }

  /** Any difference of two directions in (-180, 180] lies in (-360, 360),
      and the fold maps that interval onto [0, 180]. */
  lemma FoldRange(d: real)
    requires -360.0 < d < 360.0
    ensures 0.0 <= Fold(d) <= 180.0
  {
  }

  /** Folding forgets the sign of the difference. */
  lemma FoldOdd(d: real)
    ensures Fold(-d) == Fold(d)
  {
  }

  /** Every joint angle is in [0, 180] degrees. */
  lemma JointAngleRange(atan2: (real, real) -> real, a: Point, b: Point, c: Point)
    requires InHalfTurn(atan2)
    ensures 0.0 <= JointAngle(atan2, a, b, c) <= 180.0
  {
    var d := atan2(c.y - b.y, c.x - b.x) - atan2(a.y - b.y, a.x - b.x);
    assert -360.0 < d < 360.0;
    FoldRange(d);
  }

  /** Swapping the two outer points does not change the angle. */
  lemma JointAngleSymmetric(atan2: (real, real) -> real, a: Point, b: Point, c: Point)
    ensures JointAngle(atan2, a, b, c) == JointAngle(atan2, c, b, a)
  {
    var d := atan2(c.y - b.y, c.x - b.x) - atan2(a.y - b.y, a.x - b.x);
    FoldOdd(d);
  }

  /** Both angles handed to the counting rules are in [0, 180]. */
  lemma JointsAnglesRange(atan2: (real, real) -> real, j: Joints)
    requires InHalfTurn(atan2)
    ensures 0.0 <= ArmAngle(atan2, j) <= 180.0
    ensures 0.0 <= LegAngle(atan2, j) <= 180.0
  {
    JointAngleRange(atan2, j.shoulder, j.elbow, j.wrist);
    JointAngleRange(atan2, j.hip, j.knee, j.ankle);
  }

  /** The right angle, the straight line and the folded-back ray. */
  lemma JointAngleFixtures(atan2: (real, real) -> real)
    requires IsAtan2Deg(atan2)
    ensures JointAngle(atan2, Point(0.0, 0.0), Point(1.0, 0.0), Point(1.0, 1.0)) == 90.0
    ensures JointAngle(atan2, Point(0.0, 0.0), Point(1.0, 0.0), Point(2.0, 0.0)) == 180.0
    ensures JointAngle(atan2, Point(0.0, 0.0), Point(1.0, 0.0), Point(0.0, 0.0)) == 0.0
  {
    assert atan2(1.0, 0.0) == 90.0;
    assert atan2(0.0, -1.0) == 180.0;
    assert atan2(0.0, 1.0) == 0.0;
  }
}

=== FILE: camera_handler.dfy ===
/** The flag state of `CameraHandler` (utils/camera_handler.py) and one
    iteration of its capture loop. Whether a device opens, what a read
    returns and the clock are parameters; the capture thread itself, its
    sleeps and the join are not modelled. */
module CameraHandler {
  import opened Types

  const DefaultFps: int := 30
  const DefaultWidth: int := 640
  const DefaultHeight: int := 480
  /** The camera index whose frames are mirrored (the front camera). */
  const FrontIndex: int := 1
  /** Loop sleeps, in seconds: while paused, while waiting for the next
      frame slot, and after an exception. */
  const PausedSleep: real := 0.1
  const WaitSleep: real := 0.01
  const ErrorSleep: real := 0.1

  /** A device handle `cap`, opened for camera `index`; `isOpen` is what
      its `isOpened()` reports. */
  datatype Capture = Capture(index: int, isOpen: bool)

  datatype Camera = Camera(index: int, cap: Option<Capture>, isRunning: bool, isPaused: bool,
                           currentFrame: Option<Frame>, fps: int, width: int, height: int)

  /** `CameraHandler(camera_index)`. */
  function New(index: int): (c: Camera)
    ensures c.index == index && c.cap == None && c.currentFrame == None
    ensures !c.isRunning && !c.isPaused
    ensures c.fps == DefaultFps && c.width == DefaultWidth && c.height == DefaultHeight
  {
    Camera(index, None, false, false, None, DefaultFps, DefaultWidth, DefaultHeight)
  }

  /** `is_camera_available`: a handle exists and is open. */
  predicate Available(c: Camera)
    ensures Available(c) ==> c.cap.Some? && c.cap.value.isOpen
    ensures c.cap.Some? && c.cap.value.isOpen ==> Available(c)
  {
    c.cap.Some? && c.cap.value.isOpen
  }

  datatype Started = Started(camera: Camera, ok: bool)

  /** `start_capture`. `opens` says whether the device at the current
      index opens. The handle is replaced even when it does not open, so a
      failed start leaves an unopened handle behind and the running flag
      as it was. */
  function StartCapture(c: Camera, opens: bool): (r: Started)
    ensures r.ok == opens
    ensures r.ok ==> r.camera.isRunning && !r.camera.isPaused
    ensures Available(r.camera) <==> r.ok
    ensures r.camera.cap.Some? && r.camera.cap.value.index == c.index
    ensures !r.ok ==> r.camera.isRunning == c.isRunning && r.camera.isPaused == c.isPaused
    ensures r.camera.index == c.index && r.camera.currentFrame == c.currentFrame
    ensures r.camera.fps == c.fps && r.camera.width == c.width && r.camera.height == c.height
  {
    var handled := c.(cap := Some(Capture(c.index, opens)));
    if !opens then Started(handled, false)
    else Started(handled.(isRunning := true, isPaused := false), true)
  }

  /** `stop_capture`: always safe; clears the running flag and releases
      the handle, leaving everything else as it was. */
  function StopCapture(c: Camera): (r: Camera)
    ensures !r.isRunning && r.cap == None && !Available(r)
    ensures r.index == c.index && r.isPaused == c.isPaused && r.currentFrame == c.currentFrame
    ensures r.fps == c.fps && r.width == c.width && r.height == c.height
  {
    c.(isRunning := false, cap := None)
  }

  /** `pause_capture`. */
  function PauseCapture(c: Camera): (r: Camera)
    ensures r.isPaused && r.(isPaused := c.isPaused) == c
  {
    c.(isPaused := true)
  }

  /** `resume_capture`. */
  function ResumeCapture(c: Camera): (r: Camera)
    ensures !r.isPaused && r.(isPaused := c.isPaused) == c
  {
    c.(isPaused := false)
  }

  /** `switch_camera`: flips between index 0 and 1, restarting the device
      only if it was running. A stopped camera only changes the index the
      next start will use; no device is touched. */
  function SwitchCamera(c: Camera, opens: bool): (r: Camera)
    ensures r.index == 1 - c.index
    ensures !c.isRunning ==> r == c.(index := 1 - c.index)
    ensures c.isRunning ==> (r.isRunning <==> opens) && (Available(r) <==> opens)
    ensures c.isRunning ==> r.cap == Some(Capture(1 - c.index, opens))
    ensures c.isRunning && opens ==> !r.isPaused
    ensures c.isRunning && !opens ==> r.isPaused == c.isPaused
    ensures r.fps == c.fps && r.width == c.width && r.height == c.height
    ensures r.currentFrame == c.currentFrame
  {
    if c.isRunning then StartCapture(StopCapture(c).(index := 1 - c.index), opens).camera
    else c.(index := 1 - c.index)
  }

  /** Pausing and then resuming a handler that was not paused gives it
      back unchanged, and the other way round. */
  lemma PauseResumeRoundTrip(c: Camera)
    ensures !c.isPaused ==> ResumeCapture(PauseCapture(c)) == c
    ensures c.isPaused ==> PauseCapture(ResumeCapture(c)) == c
  {
  }

  /** Switching a stopped camera twice restores it exactly. */
  lemma SwitchTwiceStopped(c: Camera, o1: bool, o2: bool)
    requires !c.isRunning
    ensures SwitchCamera(SwitchCamera(c, o1), o2) == c
  {
  }

  /** Switching a running camera twice, with both reopenings succeeding,
      comes back running and unpaused on the same camera with a fresh
      handle. */
  lemma SwitchTwiceRunning(c: Camera)
    requires c.isRunning
    ensures SwitchCamera(SwitchCamera(c, true), true)
         == c.(cap := Some(Capture(c.index, true)), isPaused := false)
  {
  }

  datatype Configured = Configured(camera: Camera, applied: bool)

  /** `set_resolution`: the requested size is always recorded; it is
      passed on to the device only when one is open. */
  function SetResolution(c: Camera, width: int, height: int): (r: Configured)
    ensures r.camera.width == width && r.camera.height == height
    ensures r.camera.(width := c.width, height := c.height) == c
    ensures r.applied <==> Available(c)
  {
    Configured(c.(width := width, height := height), Available(c))
  }

  /** `set_fps`: likewise for the frame rate. */
  function SetFps(c: Camera, fps: int): (r: Configured)
    ensures r.camera.fps == fps
    ensures r.camera.(fps := c.fps) == c
    ensures r.applied <==> Available(c)
  {
    Configured(c.(fps := fps), Available(c))
  }

  /** What the open device reports about itself. */
  datatype DeviceProps = DeviceProps(width: int, height: int, fps: real)

  datatype CameraInfo = CameraInfo(width: int, height: int, fps: real, index: int)

  /** `get_camera_info`: `None` unless a device is open; otherwise the
      device's own report together with the index. */
  function GetCameraInfo(c: Camera, reported: DeviceProps): (r: Option<CameraInfo>)
    ensures r.None? <==> !Available(c)
    ensures r.Some? ==> r.value == CameraInfo(reported.width, reported.height, reported.fps, c.index)
  {
    if !Available(c) then None
    else Some(CameraInfo(reported.width, reported.height, reported.fps, c.index))
  }

  /** Device information over the handler's life: none for a new
      handler, after a start exactly when the device opened, and none after
      a stop; the settings calls never change whether it exists. */
  lemma CameraInfoLifecycle(c: Camera, index: int, opens: bool, reported: DeviceProps,
                            width: int, height: int, fps: int)
    ensures GetCameraInfo(New(index), reported).None?
    ensures GetCameraInfo(StartCapture(c, opens).camera, reported).Some? <==> opens
    ensures opens ==> GetCameraInfo(StartCapture(c, opens).camera, reported).value.index == c.index
    ensures GetCameraInfo(StopCapture(c), reported).None?
    ensures GetCameraInfo(PauseCapture(c), reported) == GetCameraInfo(c, reported)
    ensures GetCameraInfo(ResumeCapture(c), reported) == GetCameraInfo(c, reported)
    ensures GetCameraInfo(SetResolution(c, width, height).camera, reported) == GetCameraInfo(c, reported)
    ensures GetCameraInfo(SetFps(c, fps).camera, reported) == GetCameraInfo(c, reported)
  {
  }

  /** `_process_frame`: frames of the front camera are mirrored. */
  function OrientFrame(c: Camera, f: Frame): (r: Frame)
    ensures r.width == f.width && r.height == f.height
    ensures r.mirrored != f.mirrored <==> c.index == FrontIndex
  {
    if c.index == FrontIndex then Flip(f) else f
  }

  /** `1.0 / fps`, computed once when the loop starts; a zero rate raises
      and ends the loop before any read. */
  function FrameInterval(fps: int): (r: Option<real>)
    ensures r.None? <==> fps == 0
    ensures r.Some? ==> r.value * (fps as real) == 1.0
  {
    if fps == 0 then None else Some(1.0 / (fps as real))
  }

  /** What `cap.read()` does: a frame, `ret == False`, or an exception. */
  datatype Read = ReadOk(frame: Frame) | ReadFailed | ReadRaised

  /** How an iteration of the loop ends: leave the loop, sleep for some
      seconds, go round again at once, or deliver a frame. */
  datatype Tick = Exit | Idle(seconds: real) | Retry | Delivered(frame: Frame)

  datatype LoopStep = LoopStep(camera: Camera, lastFrameTime: real, tick: Tick)

  /** A read is due once a full frame interval has passed since the last
      frame that was delivered. */
  predicate ReadDue(interval: real, last: real, now: real)
  {
    now - last >= interval
  }

  /** `last_frame_time` when the loop starts. */
  const LoopStartTime: real := 0.0

  /** One iteration of `_capture_loop` at time `now`; `read` is consulted
      only if the loop gets as far as reading. */
  function CaptureTick(c: Camera, interval: real, last: real, now: real, read: Read): (r: LoopStep)
    ensures r.tick.Delivered? <==>
              c.isRunning && !c.isPaused && ReadDue(interval, last, now) && Available(c) && read.ReadOk?
    ensures r.tick.Exit? <==>
              !c.isRunning || (!c.isPaused && ReadDue(interval, last, now) && !Available(c))
    ensures !r.tick.Delivered? ==> r.camera == c && r.lastFrameTime == last
    ensures r.tick.Delivered? ==>
              && r.tick.frame == OrientFrame(c, read.frame)
              && r.camera == c.(currentFrame := Some(r.tick.frame))
              && r.lastFrameTime == now
  {
    if !c.isRunning then LoopStep(c, last, Exit)
    else if c.isPaused then LoopStep(c, last, Idle(PausedSleep))
    else if !ReadDue(interval, last, now) then LoopStep(c, last, Idle(WaitSleep))
    else if !Available(c) then LoopStep(c, last, Exit)
    else
      match read
      case ReadFailed => LoopStep(c, last, Retry)
      case ReadRaised => LoopStep(c, last, Idle(ErrorSleep))
      case ReadOk(f) =>
        var g := OrientFrame(c, f);
        LoopStep(c.(currentFrame := Some(g)), now, Delivered(g))
  }

  /** One observation of the loop: the clock and the read it would get. */
  datatype Sample = Sample(now: real, read: Read)

  /** The times at which frames are delivered over a sequence of loop
      iterations, stopping at the first exit. */
  function DeliveryTimes(c: Camera, interval: real, last: real, xs: seq<Sample>): seq<real>
    decreases |xs|
  {
    if |xs| == 0 then []
    else
      var st := CaptureTick(c, interval, last, xs[0].now, xs[0].read);
      if st.tick.Exit? then []
      else if st.tick.Delivered? then
        [xs[0].now] + DeliveryTimes(st.camera, interval, st.lastFrameTime, xs[1..])
      else DeliveryTimes(st.camera, interval, st.lastFrameTime, xs[1..])
  }

  /** Frames are never delivered faster than the configured rate: the
      first comes a full interval after the previous one and each later
      one a full interval after its predecessor. */
  lemma {:induction false} DeliveriesSpaced(c: Camera, interval: real, last: real, xs: seq<Sample>)
    ensures var ts := DeliveryTimes(c, interval, last, xs);
            && (|ts| > 0 ==> ts[0] - last >= interval)
            && forall i :: 0 <= i < |ts| - 1 ==> ts[i + 1] - ts[i] >= interval
    decreases |xs|
  {
    if |xs| > 0 {
      var st := CaptureTick(c, interval, last, xs[0].now, xs[0].read);
      DeliveriesSpaced(st.camera, interval, st.lastFrameTime, xs[1..]);
      if !st.tick.Exit? && st.tick.Delivered? {
        var rest := DeliveryTimes(st.camera, interval, st.lastFrameTime, xs[1..]);
        var ts := [xs[0].now] + rest;
        assert forall i :: 0 < i < |ts| - 1 ==> ts[i + 1] - ts[i] >= interval by {
          forall i | 0 < i < |ts| - 1
            ensures ts[i + 1] - ts[i] >= interval
          {
            assert ts[i] == rest[i - 1] && ts[i + 1] == rest[i];
          }
        }
      }
    }
  }

  /** The delivery times of a whole `_capture_loop` run: the interval is
      fixed from the rate when the loop starts, a zero rate ends the loop
      at once, and no frame counts as delivered before the loop starts. */
  function CaptureLoop(c: Camera, xs: seq<Sample>): (ts: seq<real>)
    ensures c.fps == 0 ==> ts == []
    ensures c.fps != 0 ==>
              && (|ts| > 0 ==> ts[0] - LoopStartTime >= 1.0 / (c.fps as real))
              && forall i :: 0 <= i < |ts| - 1 ==> ts[i + 1] - ts[i] >= 1.0 / (c.fps as real)
  {
    match FrameInterval(c.fps)
    case None => []
    case Some(interval) =>
      DeliveriesSpaced(c, interval, LoopStartTime, xs);
      DeliveryTimes(c, interval, LoopStartTime, xs)
  }

  /** While paused the loop never reads, so nothing is delivered. */
  lemma {:induction false} PausedDeliversNothing(c: Camera, interval: real, last: real, xs: seq<Sample>)
    requires c.isPaused
    ensures DeliveryTimes(c, interval, last, xs) == []
    decreases |xs|
  {
    if |xs| > 0 {
      PausedDeliversNothing(c, interval, last, xs[1..]);
    }
  }
}

=== FILE: main_screen.dfy ===
/** The detection session kept by `MainScreen` (screens/main_screen.py):
    which detector and camera handler exist, whether detection is on, and
    the session's high-water rep count that is saved when a session ends.
    Widgets, popups and the scheduler are not modelled; the camera
    permission, device opening, the video decoder and the pose estimator
    are parameters. */
module MainScreen {
  import opened Types
  import PD = PoseDetector
  import CH = CameraHandler
  import UM = UserManager

  datatype Session = Session(detector: Option<PD.Detector>, camera: Option<CH.Camera>,
                             isDetecting: bool, sessionCounter: nat)

  /** The session state a new screen starts with. */
  function Initial(): (s: Session)
    ensures s.detector.None? && s.camera.None? && !s.isDetecting && s.sessionCounter == 0
  {
    Session(None, None, false, 0)
  }

  /** The session counter is never behind a live detector's count. */
  ghost predicate Inv(s: Session)
  {
    s.detector.Some? ==> s.detector.value.counter <= s.sessionCounter
  }

  /** The session counter is exactly the live detector's count. */
  ghost predicate Synced(s: Session)
  {
    s.detector.Some? ==> s.detector.value.counter == s.sessionCounter
  }

  /** An operation's new state and the count it handed to
      `save_session_result`, if any. */
  datatype Outcome = Outcome(session: Session, saved: Option<nat>)

  /** `on_frame_callback`: the session counter rises to a reported count
      above it and otherwise stays. */
  function OnFrameCallback(s: Session, report: PD.Report): (r: Session)
    ensures r.sessionCounter >= s.sessionCounter && r.sessionCounter >= report.counter
    ensures r.sessionCounter == s.sessionCounter || r.sessionCounter == report.counter
    ensures r.(sessionCounter := s.sessionCounter) == s
  {
    if report.counter > s.sessionCounter then s.(sessionCounter := report.counter) else s
  }

  /** A frame through the detector, with its report fed back to
      `on_frame_callback`; the detector must be present. */
  function Analyse(s: Session, frame: Option<Frame>, est: PD.Estimate): (r: Session)
    requires s.detector.Some?
    ensures r.detector == Some(PD.ProcessFrame(s.detector.value, frame, est).detector)
    ensures r.camera == s.camera && r.isDetecting == s.isDetecting
    ensures r.sessionCounter >= s.sessionCounter
    ensures PD.ProcessFrame(s.detector.value, frame, est).escaped ==> r == s
    ensures Inv(s) ==> Inv(r)
    ensures Synced(s) ==> Synced(r)
  {
    var p := PD.ProcessFrame(s.detector.value, frame, est);
    var s' := s.(detector := Some(p.detector));
    match p.report
    case None => s'
    case Some(rep) => OnFrameCallback(s', rep)
  }

  /** `start_detection`. Without camera permission nothing happens.
      Otherwise a new detector and a new handler on camera 0 replace the
      old ones, and only if capture starts is detection switched on with
      the session counter cleared. */
  function StartDetection(s: Session, permitted: bool, opens: bool): (r: Session)
    ensures !permitted ==> r == s
    ensures permitted ==>
              && r.detector == Some(PD.Init())
              && r.camera == Some(CH.StartCapture(CH.New(0), opens).camera)
    ensures permitted && opens ==> r.isDetecting && r.sessionCounter == 0
    ensures permitted && !opens ==>
              r.isDetecting == s.isDetecting && r.sessionCounter == s.sessionCounter
    ensures Inv(s) || permitted ==> Inv(r)
  {
    if !permitted then s
    else
      var started := CH.StartCapture(CH.New(0), opens);
      var s' := s.(detector := Some(PD.Init()), camera := Some(started.camera));
      if started.ok then s'.(isDetecting := true, sessionCounter := 0) else s'
  }

  /** `stop_detection`: detection off, camera stopped and dropped,
      detector dropped; the session count is saved only if a detector was
      live and the count is positive. */
  function StopDetection(s: Session): (r: Outcome)
    ensures !r.session.isDetecting && r.session.camera.None? && r.session.detector.None?
    ensures r.session.sessionCounter == s.sessionCounter
    ensures r.saved.Some? <==> s.detector.Some? && s.sessionCounter > 0
    ensures r.saved.Some? ==> r.saved.value == s.sessionCounter
  {
    var saved := if s.detector.Some? && s.sessionCounter > 0 then Some(s.sessionCounter) else None;
    Outcome(Session(None, None, false, s.sessionCounter), saved)
  }

  /** `on_start_detection`: the button toggles detection. */
  function OnStartDetection(s: Session, permitted: bool, opens: bool): (r: Outcome)
    ensures !s.isDetecting ==> r == Outcome(StartDetection(s, permitted, opens), None)
    ensures s.isDetecting ==> r == StopDetection(s) && !r.session.isDetecting
  {
    if !s.isDetecting then Outcome(StartDetection(s, permitted, opens), None)
    else StopDetection(s)
  }

  /** `on_camera_frame`: ignored without a detector or without a frame. */
  function OnCameraFrame(s: Session, frame: Option<Frame>, est: PD.Estimate): (r: Session)
    ensures s.detector.None? || frame.None? ==> r == s
    ensures s.detector.Some? && frame.Some? ==> r == Analyse(s, frame, est)
    ensures r.sessionCounter >= s.sessionCounter
  {
    if s.detector.Some? && frame.Some? then Analyse(s, frame, est) else s
  }

  /** `process_uploaded_video`: a new detector is installed first; only if
      the file opens are the counter cleared and detection switched on. */
  function StartVideo(s: Session, opens: bool): (r: Session)
    ensures r.detector == Some(PD.Init()) && r.camera == s.camera
    ensures opens ==> r.isDetecting && r.sessionCounter == 0
    ensures !opens ==> r.isDetecting == s.isDetecting && r.sessionCounter == s.sessionCounter
    ensures Inv(r)
  {
    var s' := s.(detector := Some(PD.Init()));
    if opens then s'.(sessionCounter := 0, isDetecting := true) else s'
  }

  /** What `process_video_frame` does and whether it asks to be scheduled
      again. */
  datatype VideoTick = VideoTick(session: Session, saved: Option<nat>, again: bool)

  /** Whether the frame goes to a detector whose resize of it raises. */
  predicate VideoFrameRaises(s: Session, read: Option<Frame>)
  {
    s.detector.Some? && read.Some? && PD.ResizeRaises(read.value)
  }

  /** `process_video_frame`. `read` is the decoder's next frame, `None` at
      the end of the file. At the end detection stops, a positive count is
      saved, the detector is dropped and scheduling stops; otherwise the
      frame goes to the detector if there is one and scheduling goes on,
      unless the detector raised, which the handler catches by stopping
      the schedule with nothing saved and detection still on. */
  function ProcessVideoFrame(s: Session, read: Option<Frame>, est: PD.Estimate): (r: VideoTick)
    ensures r.again <==> read.Some? && !VideoFrameRaises(s, read)
    ensures VideoFrameRaises(s, read) ==> r == VideoTick(s, None, false)
    ensures read.None? ==>
              && !r.session.isDetecting && r.session.detector.None?
              && r.session.camera == s.camera && r.session.sessionCounter == s.sessionCounter
              && (r.saved.Some? <==> s.sessionCounter > 0)
              && (r.saved.Some? ==> r.saved.value == s.sessionCounter)
    ensures read.Some? ==> r.saved.None? && r.session == OnCameraFrame(s, read, est)
  {
    match read
    case None =>
      var saved := if s.sessionCounter > 0 then Some(s.sessionCounter) else None;
      VideoTick(s.(isDetecting := false, detector := None), saved, false)
    case Some(_) =>
      VideoTick(OnCameraFrame(s, read, est), None, !VideoFrameRaises(s, read))
  }

  /** `on_switch_camera`: only with a handler and detection on. */
  function OnSwitchCamera(s: Session, opens: bool): (r: Session)
    ensures s.camera.Some? && s.isDetecting ==>
              r == s.(camera := Some(CH.SwitchCamera(s.camera.value, opens)))
    ensures !(s.camera.Some? && s.isDetecting) ==> r == s
  {
    if s.camera.Some? && s.isDetecting then s.(camera := Some(CH.SwitchCamera(s.camera.value, opens)))
    else s
  }

  /** `on_reset_counter`: resets the detector if there is one and clears
      the session counter. */
  function OnResetCounter(s: Session): (r: Session)
    ensures r.sessionCounter == 0
    ensures r.detector.Some? <==> s.detector.Some?
    ensures r.detector.Some? ==> r.detector.value == PD.Reset(s.detector.value)
    ensures r.camera == s.camera && r.isDetecting == s.isDetecting
    ensures Synced(r)
  {
    var d := if s.detector.Some? then Some(PD.Reset(s.detector.value)) else None;
    s.(detector := d, sessionCounter := 0)
  }

  /** `on_leave`, and the first half of `on_logout_press`: stop a running
      detection. */
  function OnLeave(s: Session): (r: Outcome)
    ensures s.isDetecting ==> r == StopDetection(s)
    ensures !s.isDetecting ==> r == Outcome(s, None)
    ensures !r.session.isDetecting
  {
    if s.isDetecting then StopDetection(s) else Outcome(s, None)
  }

  /** `save_session_result`: the count goes to the logged-in user's
      records; with nobody logged in (empty user name) nothing is saved. */
  function SaveSessionResult(store: UM.Store, currentUser: string, count: nat, now: int): (r: UM.Store)
    ensures currentUser == [] || currentUser !in store ==> r == store
    ensures currentUser != [] && currentUser in store ==>
              r == UM.AddPushupRecord(store, currentUser, count, now, None).store
  {
    if currentUser == [] then store
    else UM.AddPushupRecord(store, currentUser, count, now, None).store
  }

  /** Saving a session result keeps the store's aggregates consistent. */
  lemma SaveSessionResultValid(store: UM.Store, currentUser: string, count: nat, now: int)
    requires UM.ValidStore(store)
    ensures UM.ValidStore(SaveSessionResult(store, currentUser, count, now))
  {
    if currentUser != [] {
      UM.AddPushupRecordValid(store, currentUser, count, now, None);
    }
  }

  /** The user actions and device events the screen reacts to. */
  datatype Event =
    | StartPressed(permitted: bool, opens: bool)
    | CameraFrame(frame: Option<Frame>, est: PD.Estimate)
    | VideoChosen(opens: bool)
    | VideoFrame(read: Option<Frame>, videoEst: PD.Estimate)
    | SwitchPressed(switchOpens: bool)
    | ResetPressed
    | Left

  function Apply(s: Session, e: Event): Outcome
  {
    match e
    case StartPressed(permitted, opens) => OnStartDetection(s, permitted, opens)
    case CameraFrame(frame, est) => Outcome(OnCameraFrame(s, frame, est), None)
    case VideoChosen(opens) => Outcome(StartVideo(s, opens), None)
    case VideoFrame(read, est) =>
      var t := ProcessVideoFrame(s, read, est);
      Outcome(t.session, t.saved)
    case SwitchPressed(opens) => Outcome(OnSwitchCamera(s, opens), None)
    case ResetPressed => Outcome(OnResetCounter(s), None)
    case Left => OnLeave(s)
  }

  /** Every event keeps the session counter at or above the live
      detector's count, and only positive counts are ever saved. */
  lemma ApplyKeepsInv(s: Session, e: Event)
    requires Inv(s)
    ensures Inv(Apply(s, e).session)
    ensures Apply(s, e).saved.Some? ==> Apply(s, e).saved.value > 0
  {
    match e
    case CameraFrame(frame, est) =>
    case VideoFrame(read, est) =>
    case SwitchPressed(opens) =>
    case _ =>
  }

  /** The state a screen reaches after a sequence of events. */
  function Replay(s: Session, es: seq<Event>): Session
    decreases |es|
  {
    if |es| == 0 then s else Replay(Apply(s, es[0]).session, es[1..])
  }

  /** Saved counts, in order, over a sequence of events. */
  function SavedCounts(s: Session, es: seq<Event>): seq<nat>
    decreases |es|
  {
    if |es| == 0 then []
    else
      var o := Apply(s, es[0]);
      (if o.saved.Some? then [o.saved.value] else []) + SavedCounts(o.session, es[1..])
  }

  /** From the initial screen, any sequence of events ends in a state
      whose counter is not behind its detector and saves only positive
      counts. */
  lemma {:induction false} ReplayKeepsInv(s: Session, es: seq<Event>)
    requires Inv(s)
    ensures Inv(Replay(s, es))
    ensures forall i :: 0 <= i < |SavedCounts(s, es)| ==> SavedCounts(s, es)[i] > 0
    decreases |es|
  {
    if |es| > 0 {
      var o := Apply(s, es[0]);
      ApplyKeepsInv(s, es[0]);
      ReplayKeepsInv(o.session, es[1..]);
      var head := if o.saved.Some? then [o.saved.value] else [];
      var all := head + SavedCounts(o.session, es[1..]);
      forall i | 0 <= i < |all|
        ensures all[i] > 0
      {
        if i >= |head| {
          assert all[i] == SavedCounts(o.session, es[1..])[i - |head|];
        }
      }
    }
  }

  /** A detector started with the session stays in step with the session
      counter under camera frames, video frames, resets and switches. */
  lemma SyncedStep(s: Session, e: Event)
    requires Synced(s)
    requires !e.StartPressed? || e.opens || !e.permitted
    requires !e.VideoChosen? || e.opens
    ensures Synced(Apply(s, e).session)
  {
  }

  /** Stopping a video session by hand saves its count, and the frame
      timer, still scheduled, saves the same count again when it reaches
      the end of the file: the end-of-file save is not guarded by a live
      detector as the one in `stop_detection` is. */
  lemma StopThenEndOfVideoSavesTwice(s: Session, permitted: bool, opens: bool, est: PD.Estimate)
    requires s.isDetecting && s.detector.Some? && s.sessionCounter > 0
    ensures SavedCounts(s, [StartPressed(permitted, opens), VideoFrame(None, est)])
            == [s.sessionCounter, s.sessionCounter]
  {
    var es := [StartPressed(permitted, opens), VideoFrame(None, est)];
    var stopped := Apply(s, es[0]);
    assert stopped.saved == Some(s.sessionCounter);
    var rest := [VideoFrame(None, est)];
    assert es[1..] == rest && rest[1..] == [];
    var ended := Apply(stopped.session, rest[0]);
    assert ended.saved == Some(s.sessionCounter);
    assert SavedCounts(stopped.session, rest) == [s.sessionCounter] + SavedCounts(ended.session, []);
    assert SavedCounts(s, es) == [s.sessionCounter] + SavedCounts(stopped.session, rest);
  }

  /** What a session saves is the number of reps its detector counted. */
  lemma StopSavesDetectorCount(s: Session)
    requires Synced(s) && s.detector.Some?
    ensures var c := s.detector.value.counter;
            StopDetection(s).saved == (if c > 0 then Some(c) else None)
  {
  }
}

=== FILE: pose_detector.dfy ===
/** The push-up counter of `PoseDetector` (core/pose_detector.py): a
    three-stage hysteresis machine over the arm and leg angles, a counter
    that only a reset lowers, the one-in-three frame sampling and the width
    cap applied before analysis, including the resize that raises when
    the scaled height truncates to zero. The pose estimator is an oracle: for each
    analysed frame it yields the two angles, no landmarks, or an error. */
module PoseDetector {
  import opened Types

  /** `self.stage`: `None`, `"down"` or `"up"`. */
  datatype Stage = Unset | Down | Up

  /** Arm thresholds, `max_angle` and `min_angle`. */
  const MaxArmAngle: real := 160.0
  const MinArmAngle: real := 80.0
  /** The leg must be straighter than this to enter Down (literal `160`). */
  const DownLegAngle: real := 160.0
  /** The leg must be below this to count (literal `180`); a folded angle
      reaches 180 only on a perfectly straight leg. */
  const UpLegBound: real := 180.0
  /** Only every third frame is analysed. */
  const ProcessInterval: nat := 3
  /** Frames wider than this are scaled down to it. */
  const MaxWidth: nat := 640

  /** The detector's mutable state: the rep counter, the stage and the
      number of non-`None` frames seen so far. */
  datatype Detector = Detector(counter: nat, stage: Stage, frameCount: nat)

  /** Arm and leg extended: the posture that arms a repetition. */
  predicate Extended(arm: real, leg: real)
  {
    arm > MaxArmAngle && leg > DownLegAngle
  }

  /** Arm bent: the posture that completes an armed repetition. */
  predicate Flexed(arm: real, leg: real)
  {
    arm < MinArmAngle && leg < UpLegBound
  }

  /** The state right after construction. */
  function Init(): (d: Detector)
    ensures d.counter == 0 && d.stage == Unset && d.frameCount == 0
  {
    Detector(0, Unset, 0)
  }

  /** `reset_counter`: back to zero reps and no stage, from any state; the
      sampling phase is kept. */
  function Reset(d: Detector): (r: Detector)
    ensures r.counter == 0 && r.stage == Unset
    ensures r.frameCount == d.frameCount
  {
    d.(counter := 0, stage := Unset)
  }

  /** The two counting rules applied in order to one observed pair of
      angles. The Down rule is evaluated first and the Up rule sees its
      effect; their arm conditions are disjoint, so at most one fires. */
  function Step(d: Detector, arm: real, leg: real): (r: Detector)
    ensures r.frameCount == d.frameCount
    ensures Extended(arm, leg) ==> r == d.(stage := Down)
    ensures r.counter == d.counter + 1 <==> d.stage == Down && Flexed(arm, leg)
    ensures r.counter != d.counter ==> r.counter == d.counter + 1 && r.stage == Up
    ensures !Extended(arm, leg) && !(d.stage == Down && Flexed(arm, leg)) ==> r == d
  {
    var s := if Extended(arm, leg) then d.(stage := Down) else d;
    if Flexed(arm, leg) && s.stage == Down then s.(stage := Up, counter := s.counter + 1) else s
  }

  /** A frame wider than 640 whose height, scaled by 640 / width, truncates
      to zero: the resize is then asked for an empty target size and no
      scale factor, and raises. */
  predicate ResizeRaises(f: Frame)
  {
    f.width > MaxWidth && f.height * MaxWidth < f.width
  }

  /** The dimensions `process_frame` works on: a frame wider than 640 is
      resized to width 640 with the height scaled by the same factor and
      truncated; `None` when that resize raises. */
  function Downscale(f: Frame): (r: Option<Frame>)
    ensures r.None? <==> ResizeRaises(f)
    ensures r.Some? ==> r.value.mirrored == f.mirrored && r.value.width <= MaxWidth
    ensures f.width <= MaxWidth ==> r == Some(f)
    ensures r.Some? && f.width > MaxWidth ==>
              && r.value.width == MaxWidth && 0 < r.value.height <= f.height
              && r.value.height * f.width <= f.height * MaxWidth < (r.value.height + 1) * f.width
  {
    if f.width > MaxWidth then
      var h := f.height * MaxWidth / f.width;
      ScaleBounds(f.height, f.width);
      if h == 0 then None else Some(f.(width := MaxWidth, height := h))
    else
      Some(f)
  }

  lemma DivBounds(n: nat, k: nat)
    requires k > 0
    ensures (n / k) * k <= n < (n / k + 1) * k
  {
  }

  /** A height scaled by 640 / width, for a width above 640, shrinks. */
  lemma MulCancel(h: nat, height: nat, width: nat)
    requires width > MaxWidth && h * width <= height * MaxWidth
    ensures h <= height
  {
    assert height * MaxWidth <= height * width;
  }

  /** The truncated scaled height: bounded on both sides, no taller than
      the original, and zero exactly when the exact product is below one. */
  lemma ScaleBounds(height: nat, width: nat)
    requires width > MaxWidth
    ensures var h := height * MaxWidth / width;
            && h * width <= height * MaxWidth < (h + 1) * width
            && h <= height
            && (h == 0 <==> height * MaxWidth < width)
  {
    var n := height * MaxWidth;
    var h := n / width;
    DivBounds(n, width);
    MulCancel(h, height, width);
    if h > 0 {
      MulLeq(1, h, width);
    }
  }

  lemma MulLeq(a: nat, b: nat, k: nat)
    requires a <= b
    ensures a * k <= b * k
  {
  }

  /** The pose estimator's answer for one analysed frame. `Raised` stands
      for an exception inside the analysis block, which makes the frame
      come back unannotated and skips the callback. */
  datatype Estimate = NoPose | Pose(arm: real, leg: real) | Raised

  /** The arguments handed to the registered callback after analysis. */
  datatype Report = Report(counter: nat, stage: Stage, arm: real, leg: real)

  /** What `process_frame` returns, together with the detector's new state
      and the report a registered callback receives, if any. `escaped` is
      set when the resize raised: the exception leaves `process_frame`,
      which then returns nothing. */
  datatype Processed = Processed(detector: Detector, frame: Option<Frame>,
                                 detected: bool, report: Option<Report>,
                                 escaped: bool)

  /** A frame that `process_frame` counts: present, and not one on which
      the resize raises. */
  predicate Accepted(frame: Option<Frame>)
  {
    frame.Some? && !ResizeRaises(frame.value)
  }

  /** Whether the frame that brings the frame count to `frameCount` is
      analysed. */
  predicate Analysed(frameCount: nat)
  {
    frameCount % ProcessInterval == 0
  }

  /** `process_frame`. A `None` frame is returned as is without touching
      the frame count; a frame whose resize raises leaves the detector as
      it was; any other frame is downscaled and counted, and only the
      frames whose count is a multiple of three are analysed. */
  function ProcessFrame(d: Detector, frame: Option<Frame>, est: Estimate): (r: Processed)
    ensures frame.None? ==> r == Processed(d, None, false, None, false)
    ensures r.escaped <==> frame.Some? && ResizeRaises(frame.value)
    ensures r.escaped ==> r == Processed(d, None, false, None, true)
    ensures Accepted(frame) ==>
              && r.frame == Downscale(frame.value) && r.frame.Some?
              && r.detector.frameCount == d.frameCount + 1
    ensures r.detected <==> Accepted(frame) && Analysed(d.frameCount + 1) && est.Pose?
    ensures r.report.Some? <==> Accepted(frame) && Analysed(d.frameCount + 1) && !est.Raised?
    ensures !r.detected ==> r.detector.counter == d.counter && r.detector.stage == d.stage
    ensures r.detected ==>
              r.detector == Step(d.(frameCount := d.frameCount + 1), est.arm, est.leg)
    ensures r.report.Some? ==>
              && r.report.value.counter == r.detector.counter
              && r.report.value.stage == r.detector.stage
    ensures r.report.Some? && !r.detected ==>
              r.report.value.arm == 0.0 && r.report.value.leg == 0.0
    ensures r.report.Some? && r.detected ==>
              r.report.value.arm == est.arm && r.report.value.leg == est.leg
  {
    match frame
    case None => Processed(d, None, false, None, false)
    case Some(f) =>
      match Downscale(f)
      case None => Processed(d, None, false, None, true)
      case Some(small) =>
        var counted := d.(frameCount := d.frameCount + 1);
        if !Analysed(counted.frameCount) then
          Processed(counted, Some(small), false, None, false)
        else
          match est
          case Raised => Processed(counted, Some(small), false, None, false)
          case NoPose =>
            Processed(counted, Some(small), false,
                      Some(Report(counted.counter, counted.stage, 0.0, 0.0)), false)
          case Pose(arm, leg) =>
            var next := Step(counted, arm, leg);
            Processed(next, Some(small), true,
                      Some(Report(next.counter, next.stage, arm, leg)), false)
  }

  /** One frame offered to the detector, with the estimator's answer should
      the frame be analysed. */
  datatype Input = Input(frame: Option<Frame>, est: Estimate)

  /** The detector after a stream of frames. */
  function Run(d: Detector, xs: seq<Input>): (r: Detector)
    ensures r.counter >= d.counter
    ensures r.frameCount >= d.frameCount
    decreases |xs|
  {
    if |xs| == 0 then d
    else Run(ProcessFrame(d, xs[0].frame, xs[0].est).detector, xs[1..])
  }

  /** Number of frames of a stream that `process_frame` counts. */
  function Arrivals(xs: seq<Input>): nat
  {
    if |xs| == 0 then 0
    else (if Accepted(xs[0].frame) then 1 else 0) + Arrivals(xs[1..])
  }

  /** Number of frames of a stream that reach the analysis block, starting
      from frame count `c`. */
  function Sampled(c: nat, xs: seq<Input>): nat
    decreases |xs|
  {
    if |xs| == 0 then 0
    else if !Accepted(xs[0].frame) then Sampled(c, xs[1..])
    else (if Analysed(c + 1) then 1 else 0) + Sampled(c + 1, xs[1..])
  }

  /** Number of inputs that carry an extended posture. */
  function ExtendedInputs(xs: seq<Input>): nat
  {
    if |xs| == 0 then 0
    else (if xs[0].est.Pose? && Extended(xs[0].est.arm, xs[0].est.leg) then 1 else 0)
         + ExtendedInputs(xs[1..])
  }

  /** The frame count advances exactly once per non-`None` frame whose
      resize succeeds. */
  lemma {:induction false} RunFrameCount(d: Detector, xs: seq<Input>)
    ensures Run(d, xs).frameCount == d.frameCount + Arrivals(xs)
    decreases |xs|
  {
    if |xs| > 0 {
      RunFrameCount(ProcessFrame(d, xs[0].frame, xs[0].est).detector, xs[1..]);
    }
  }

  /** Over a stream of counted frames, the analysed ones are exactly the
      multiples of three the frame count passes through. */
  lemma {:induction false} SampledCount(c: nat, xs: seq<Input>)
    requires forall i :: 0 <= i < |xs| ==> Accepted(xs[i].frame)
    ensures Sampled(c, xs) == (c + |xs|) / 3 - c / 3
    decreases |xs|
  {
    if |xs| > 0 {
      assert Accepted(xs[0].frame);
      SampledCount(c + 1, xs[1..]);
    }
  }

  /** Number of steps of `Run(d, xs)` whose frame passes the sampling gate
      of `ProcessFrame`: a counted frame that brings the detector's own
      frame count to a multiple of three. */
  function Reached(d: Detector, xs: seq<Input>): nat
    decreases |xs|
  {
    if |xs| == 0 then 0
    else
      var next := ProcessFrame(d, xs[0].frame, xs[0].est).detector;
      (if Accepted(xs[0].frame) && Analysed(next.frameCount) then 1 else 0) + Reached(next, xs[1..])
  }

  /** The frames the detector analyses along a run are the ones `Sampled`
      counts from its starting frame count. */
  lemma {:induction false} ReachedIsSampled(d: Detector, xs: seq<Input>)
    ensures Reached(d, xs) == Sampled(d.frameCount, xs)
    decreases |xs|
  {
    if |xs| > 0 {
      var next := ProcessFrame(d, xs[0].frame, xs[0].est).detector;
      ReachedIsSampled(next, xs[1..]);
    }
  }

  /** Of any three consecutive counted frames, exactly one is analysed by
      the detector. */
  lemma OneInThree(d: Detector, xs: seq<Input>)
    requires |xs| == 3
    requires forall i :: 0 <= i < |xs| ==> Accepted(xs[i].frame)
    ensures Reached(d, xs) == 1
  {
    SampledCount(d.frameCount, xs);
    ReachedIsSampled(d, xs);
  }

  /** Without an extended posture, a detector not in Down never counts
      again: flexing repeatedly after a rep adds nothing. */
  lemma {:induction false} NoDoubleCount(d: Detector, xs: seq<Input>)
    requires d.stage != Down
    requires ExtendedInputs(xs) == 0
    ensures Run(d, xs).counter == d.counter
    ensures Run(d, xs).stage == d.stage
    decreases |xs|
  {
    if |xs| > 0 {
      var p := ProcessFrame(d, xs[0].frame, xs[0].est);
      NoDoubleCount(p.detector, xs[1..]);
    }
  }

  /** One for a detector already armed in Down. */
  function Armed(d: Detector): nat
  {
    if d.stage == Down then 1 else 0
  }

  /** Every rep needs its own passage through Down: a stream adds at most
      one rep per extended posture it carries, plus one if the detector was
      already armed. */
  lemma {:induction false} RepsNeedExtension(d: Detector, xs: seq<Input>)
    ensures Run(d, xs).counter + Armed(Run(d, xs)) <= d.counter + Armed(d) + ExtendedInputs(xs)
    decreases |xs|
  {
    if |xs| > 0 {
      var p := ProcessFrame(d, xs[0].frame, xs[0].est);
      RepsNeedExtension(p.detector, xs[1..]);
    }
  }

  /** Splitting a stream splits the run. */
  lemma {:induction false} RunAppend(d: Detector, xs: seq<Input>, ys: seq<Input>)
    ensures Run(d, xs + ys) == Run(Run(d, xs), ys)
    decreases |xs|
  {
    if |xs| == 0 {
      assert xs + ys == ys;
    } else {
      assert (xs + ys)[1..] == xs[1..] + ys;
      RunAppend(ProcessFrame(d, xs[0].frame, xs[0].est).detector, xs[1..], ys);
    }
  }

  /** After a multiple of three, the next two counts are skipped and the
      third is analysed again. */
  lemma SamplingPhase(n: nat)
    requires Analysed(n)
    ensures !Analysed(n + 1) && !Analysed(n + 2) && Analysed(n + 3)
  {
    var q := n / ProcessInterval;
    assert n == 3 * q;
    assert n + 1 == 3 * q + 1 && n + 2 == 3 * q + 2 && n + 3 == 3 * (q + 1);
  }

  /** A frame that is counted but not analysed only advances the count. */
  lemma SkippedFrame(d: Detector, x: Input)
    requires Accepted(x.frame) && !Analysed(d.frameCount + 1)
    ensures ProcessFrame(d, x.frame, x.est).detector == d.(frameCount := d.frameCount + 1)
  {
  }

  /** Running a non-empty stream is processing its first frame, then the rest. */
  lemma RunCons(d: Detector, xs: seq<Input>)
    requires |xs| > 0
    ensures Run(d, xs) == Run(ProcessFrame(d, xs[0].frame, xs[0].est).detector, xs[1..])
  {
  }

  /** Three frames from a count that is a multiple of three: only the last
      one is analysed. */
  lemma ThreeFrames(d: Detector, x: Input, y: Input, z: Input)
    requires Analysed(d.frameCount)
    requires Accepted(x.frame) && Accepted(y.frame) && Accepted(z.frame)
    ensures Run(d, [x, y, z]) ==
            ProcessFrame(d.(frameCount := d.frameCount + 2), z.frame, z.est).detector
  {
    var d1 := d.(frameCount := d.frameCount + 1);
    var d2 := d.(frameCount := d.frameCount + 2);
    SamplingPhase(d.frameCount);
    SkippedFrame(d, x);
    SkippedFrame(d1, y);
    var s := [x, y, z];
    assert s[0] == x && s[1..] == [y, z];
    RunCons(d, s);
    assert [y, z][0] == y && [y, z][1..] == [z];
    RunCons(d1, [y, z]);
    assert [z][0] == z && [z][1..] == [];
    RunCons(d2, [z]);
  }

  const Sample: Frame := Frame(1280, 720, false)
  /** An extended plank and a bent-arm posture. */
  const Plank: Input := Input(Some(Sample), Pose(170.0, 170.0))
  const Bent: Input := Input(Some(Sample), Pose(50.0, 90.0))
  /** One push-up filmed over nine frames: five extended, four bent. */
  const Cycle: seq<Input> := [Plank, Plank, Plank, Plank, Plank, Bent, Bent, Bent, Bent]

  /** Each nine-frame cycle is sampled three times, arms the detector on
      the first sample and counts one rep on the second. */
  lemma OneCycle(d: Detector)
    requires Analysed(d.frameCount)
    ensures Run(d, Cycle) == Detector(d.counter + 1, Up, d.frameCount + 9)
  {
    var d1 := Detector(d.counter, Down, d.frameCount + 3);
    var d2 := Detector(d.counter + 1, Up, d.frameCount + 6);
    SamplingPhase(d.frameCount);
    SamplingPhase(d.frameCount + 3);
    CycleSplit(d);
    ChunkArms(d);
    ChunkCounts(d1);
    ChunkHolds(d2);
  }

  lemma CycleSplit(d: Detector)
    ensures Run(d, Cycle) == Run(Run(Run(d, [Plank, Plank, Plank]), [Plank, Plank, Bent]), [Bent, Bent, Bent])
  {
    var a := [Plank, Plank, Plank];
    var b := [Plank, Plank, Bent];
    var c := [Bent, Bent, Bent];
    assert Cycle == (a + b) + c;
    RunAppend(d, a + b, c);
    RunAppend(d, a, b);
  }

  lemma ChunkArms(d: Detector)
    requires Analysed(d.frameCount)
    ensures Run(d, [Plank, Plank, Plank]) == Detector(d.counter, Down, d.frameCount + 3)
  {
    ThreeFrames(d, Plank, Plank, Plank);
    var c := d.(frameCount := d.frameCount + 3);
    assert Extended(170.0, 170.0);
    assert ProcessFrame(d.(frameCount := d.frameCount + 2), Plank.frame, Plank.est).detector
        == Step(c, 170.0, 170.0);
  }

  lemma ChunkCounts(d: Detector)
    requires Analysed(d.frameCount) && d.stage == Down
    ensures Run(d, [Plank, Plank, Bent]) == Detector(d.counter + 1, Up, d.frameCount + 3)
  {
    ThreeFrames(d, Plank, Plank, Bent);
  }

  lemma ChunkHolds(d: Detector)
    requires Analysed(d.frameCount) && d.stage == Up
    ensures Run(d, [Bent, Bent, Bent]) == d.(frameCount := d.frameCount + 3)
  {
    ThreeFrames(d, Bent, Bent, Bent);
  }

  /** Three full push-ups over 27 frames are counted as exactly three. */
  lemma ThreeCycles()
    ensures Run(Init(), Cycle + Cycle + Cycle).counter == 3
  {
    RunAppend(Init(), Cycle + Cycle, Cycle);
    RunAppend(Init(), Cycle, Cycle);
    OneCycle(Init());
    OneCycle(Run(Init(), Cycle));
    OneCycle(Run(Init(), Cycle + Cycle));
  }
}

=== FILE: register_screen.dfy ===
/** The input checks of `RegisterScreen.on_register_press`
    (screens/register_screen.py): the four fields are stripped, then
    checked in a fixed order, and only input that passes every check is
    handed to the application's `register_user`. */
module RegisterScreen {
  import opened Types
  import UM = UserManager

  const MsgEmpty: string := "用户名和密码不能为空！"
  const MsgMismatch: string := "两次输入的密码不一致！"
  const MsgTooShort: string := "密码长度不能少于6位！"
  const MsgSuccess: string := "注册成功！请返回登录"
  const MinPasswordLength: nat := 6

  /** The four text fields: user name, display name, password and its
      confirmation. */
  datatype Form = Form(username: string, name: string, password: string, confirm: string)

  /** The characters Python's `str.strip()` removes, that is those for
      which `str.isspace()` holds. */
  predicate IsSpace(c: char)
  {
    var n := c as int;
    || n == 0x20 || 0x09 <= n <= 0x0D || 0x1C <= n <= 0x1F
    || n == 0x85 || n == 0xA0 || n == 0x1680 || 0x2000 <= n <= 0x200A
    || n == 0x2028 || n == 0x2029 || n == 0x202F || n == 0x205F || n == 0x3000
  }

  /** Drops leading whitespace: what is left is a suffix that does not
      start with whitespace. */
  function StripLeft(s: string): (r: string)
    ensures |r| <= |s| && r == s[|s| - |r|..]
    ensures r == [] || !IsSpace(r[0])
    decreases |s|
  {
    if |s| > 0 && IsSpace(s[0]) then StripLeft(s[1..]) else s
  }

  /** Drops trailing whitespace: what is left is a prefix that does not
      end with whitespace. */
  function StripRight(s: string): (r: string)
    ensures |r| <= |s| && r == s[..|r|]
    ensures r == [] || !IsSpace(r[|r| - 1])
    decreases |s|
  {
    if |s| > 0 && IsSpace(s[|s| - 1]) then StripRight(s[..|s| - 1]) else s
  }

  /** Everything `StripLeft` drops is whitespace. */
  lemma {:induction false} StripLeftDropsSpaces(s: string)
    ensures forall k :: 0 <= k < |s| - |StripLeft(s)| ==> IsSpace(s[k])
    decreases |s|
  {
    if |s| > 0 && IsSpace(s[0]) {
      StripLeftDropsSpaces(s[1..]);
      forall k | 0 < k < |s| - |StripLeft(s)|
        ensures IsSpace(s[k])
      {
        assert s[k] == s[1..][k - 1];
      }
    }
  }

  /** Everything `StripRight` drops is whitespace. */
  lemma {:induction false} StripRightDropsSpaces(s: string)
    ensures forall k :: |StripRight(s)| <= k < |s| ==> IsSpace(s[k])
    decreases |s|
  {
    if |s| > 0 && IsSpace(s[|s| - 1]) {
      StripRightDropsSpaces(s[..|s| - 1]);
      forall k | |StripRight(s)| <= k < |s| - 1
        ensures IsSpace(s[k])
      {
        assert s[k] == s[..|s| - 1][k];
      }
    }
  }

  /** `r` is the part of `s` that starts at `i`, and everything before and
      after it is whitespace. */
  ghost predicate InfixBetweenSpaces(s: string, r: string, i: int)
  {
    && 0 <= i <= |s| - |r|
    && r == s[i..i + |r|]
    && (forall k :: 0 <= k < i ==> IsSpace(s[k]))
    && (forall k :: i + |r| <= k < |s| ==> IsSpace(s[k]))
  }

  /** `str.strip()`: an infix of `s` that neither starts nor ends with
      whitespace; `StripIsInfix` shows that only whitespace surrounds it. */
  function Strip(s: string): (r: string)
    ensures |r| <= |s|
    ensures r == [] || (!IsSpace(r[0]) && !IsSpace(r[|r| - 1]))
  {
    StripRight(StripLeft(s))
  }

  /** What stripping removes from either end is whitespace and nothing
      else. */
  lemma StripIsInfix(s: string)
    ensures exists i :: InfixBetweenSpaces(s, Strip(s), i)
  {
    var t := StripLeft(s);
    var r := StripRight(t);
    var i := |s| - |t|;
    assert Strip(s) == r;
    StripLeftDropsSpaces(s);
    StripRightDropsSpaces(t);
    assert t == s[i..] && r == t[..|r|];
    assert r == s[i..i + |r|];
    forall k | i + |r| <= k < |s|
      ensures IsSpace(s[k])
    {
      assert s[k] == t[k - i];
    }
    assert InfixBetweenSpaces(s, r, i);
  }

  /** Stripping twice is stripping once. */
  lemma StripIdempotent(s: string)
    ensures Strip(Strip(s)) == Strip(s)
  {
    var r := Strip(s);
    assert StripLeft(r) == r;
    assert StripRight(r) == r;
  }

  /** The outcome of the checks: the first failing one, or the stripped
      user name and password to register. */
  datatype Check = EmptyField | Mismatch | TooShort | Submit(username: string, password: string)

  /** The check chain on the stripped fields: empty field, then mismatch,
      then length. The display name takes no part. */
  function Validate(f: Form): (r: Check)
    ensures var u, p, c := Strip(f.username), Strip(f.password), Strip(f.confirm);
            && (r == EmptyField <==> u == [] || p == [] || c == [])
            && (r == Mismatch <==> u != [] && p != [] && c != [] && p != c)
            && (r == TooShort <==> u != [] && p != [] && p == c && |p| < MinPasswordLength)
            && (r.Submit? ==> r.username == u && r.password == p && p == c && |p| >= MinPasswordLength)
  {
    Decide(Strip(f.username), Strip(f.password), Strip(f.confirm))
  }

  /** The check chain on fields that are already stripped. */
  function Decide(username: string, password: string, confirm: string): Check
  {
    if username == [] || password == [] || confirm == [] then EmptyField
    else if password != confirm then Mismatch
    else if |password| < MinPasswordLength then TooShort
    else Submit(username, password)
  }

  /** The display name never changes the outcome. */
  lemma ValidateIgnoresName(f: Form, name: string)
    ensures Validate(f.(name := name)) == Validate(f)
  {
  }

  /** Surrounding whitespace never changes the outcome. */
  lemma ValidateIgnoresPadding(f: Form)
    ensures Validate(Form(Strip(f.username), f.name, Strip(f.password), Strip(f.confirm)))
         == Validate(f)
  {
    var g := Form(Strip(f.username), f.name, Strip(f.password), Strip(f.confirm));
    StripIdempotent(f.username);
    StripIdempotent(f.password);
    StripIdempotent(f.confirm);
    assert Validate(g) == Decide(Strip(g.username), Strip(g.password), Strip(g.confirm));
  }

  /** Input that passes the checks can never trip the store's own
      empty-field check: if registering it fails, the name is taken. Only
      the user name and password are handed on, so the display name is
      the store's default, empty. */
  lemma SubmittedNeverEmpty(f: Form, store: UM.Store, hash: string -> string, now: int)
    ensures match Validate(f)
            case Submit(username, password) =>
              UM.Register(store, hash, now, username, password, "").ok <==> username !in store
            case _ => true
  {
    var c := Validate(f);
    if c.Submit? {
      assert c.password != [];
    }
  }

  /** What the press leads to: the message shown, whether it is the
      success popup (whose OK button clears the form), and the user name
      and password handed to `register_user`, if it was called. */
  datatype Press = Press(message: string, succeeded: bool, submitted: Option<(string, string)>)

  function CheckMessage(c: Check): string
    requires !c.Submit?
  {
    match c
    case EmptyField => MsgEmpty
    case Mismatch => MsgMismatch
    case TooShort => MsgTooShort
  }

  /** `on_register_press`; `registerUser` is the application's
      `register_user`, returning success and a message. */
  function OnRegisterPress(f: Form, registerUser: (string, string) -> (bool, string)): (r: Press)
    ensures r.submitted.Some? <==> Validate(f).Submit?
    ensures r.submitted.None? ==> !r.succeeded && r.message == CheckMessage(Validate(f))
    ensures r.submitted.Some? ==>
              var (username, password) := r.submitted.value;
              var (ok, msg) := registerUser(username, password);
              && username == Strip(f.username) && password == Strip(f.password)
              && r.succeeded == ok
              && r.message == (if ok then MsgSuccess else msg)
  {
    var c := Validate(f);
    if !c.Submit? then Press(CheckMessage(c), false, None)
    else
      var (ok, msg) := registerUser(c.username, c.password);
      Press(if ok then MsgSuccess else msg, ok, Some((c.username, c.password)))
  }

  /** `on_register_success` and `on_enter`: every field is emptied. */
  function Cleared(f: Form): (r: Form)
    ensures r.username == [] && r.name == [] && r.password == [] && r.confirm == []
    ensures Validate(r) == EmptyField
  {
    Form([], [], [], [])
  }
}

=== FILE: types.dfy ===
/** Values shared by the detector, the camera handler and the session controller. */
module Types {

  /** Python's `None`-or-value, for optional fields and results. */
  datatype Option<+T> = None | Some(value: T)

  /** A video frame. Pixel content is abstract: only the dimensions and
      whether the image has been mirrored horizontally are observable. */
  datatype Frame = Frame(width: nat, height: nat, mirrored: bool)

  /** The horizontal flip applied to frames of the front camera
      (`cv2.flip(frame, 1)`): same dimensions, mirrored the other way. */
  function Flip(f: Frame): (r: Frame)
    ensures r.width == f.width && r.height == f.height
    ensures r.mirrored != f.mirrored
  {
    f.(mirrored := !f.mirrored)
  }

  lemma FlipInvolutive(f: Frame)
    ensures Flip(Flip(f)) == f
  {
  }
}

=== FILE: user_manager.dfy ===
/** The user store of `UserManager` (core/user_manager.py): a map from
    user name to a record holding the password hash, the list of training
    sessions and two running aggregates, the total and the best session.
    The hash, the clock and the JSON file are not modelled: the hash is a
    function parameter, timestamps are integers supplied by the caller and
    the map lives in memory. */
module UserManager {
  import opened Types

  const MsgEmpty: string := "用户名和密码不能为空"
  const MsgExists: string := "用户名已存在"
  const MsgRegistered: string := "注册成功"
  /** `get_user_statistics` lists this many of the latest sessions. */
  const RecentLimit: nat := 10

  /** One training session: the rep count, its timestamp and the optional
      duration. */
  datatype Record = Record(count: int, date: int, duration: Option<int>)

  datatype User = User(passwordHash: string, name: string, createdAt: int,
                       records: seq<Record>, totalPushups: int, bestSession: int)

  type Store = map<string, User>

  /** Sum of the session counts. */
  function SumCounts(rs: seq<Record>): int
  {
    if |rs| == 0 then 0 else rs[0].count + SumCounts(rs[1..])
  }

  function Max(a: int, b: int): int
  {
    if a >= b then a else b
  }

  /** The largest session count, or 0 when there is none larger. */
  function MaxCount(rs: seq<Record>): int
  {
    if |rs| == 0 then 0 else Max(rs[0].count, MaxCount(rs[1..]))
  }

  /** The aggregates agree with the session list. */
  ghost predicate Valid(u: User)
  {
    u.totalPushups == SumCounts(u.records) && u.bestSession == MaxCount(u.records)
  }

  ghost predicate ValidStore(s: Store)
  {
    forall name :: name in s ==> Valid(s[name])
  }

  lemma {:induction false} SumCountsAppend(rs: seq<Record>, r: Record)
    ensures SumCounts(rs + [r]) == SumCounts(rs) + r.count
    decreases |rs|
  {
    if |rs| == 0 {
      assert rs + [r] == [r];
    } else {
      assert (rs + [r])[1..] == rs[1..] + [r];
      SumCountsAppend(rs[1..], r);
    }
  }

  lemma {:induction false} MaxCountAppend(rs: seq<Record>, r: Record)
    ensures MaxCount(rs + [r]) == Max(MaxCount(rs), r.count)
    decreases |rs|
  {
    if |rs| == 0 {
      assert rs + [r] == [r];
    } else {
      assert (rs + [r])[1..] == rs[1..] + [r];
      MaxCountAppend(rs[1..], r);
    }
  }

  /** The maximum bounds every count and is reached by one of them unless
      all are negative. */
  lemma {:induction false} MaxCountIsMax(rs: seq<Record>)
    ensures MaxCount(rs) >= 0
    ensures forall i :: 0 <= i < |rs| ==> rs[i].count <= MaxCount(rs)
    ensures MaxCount(rs) == 0 || exists i :: 0 <= i < |rs| && rs[i].count == MaxCount(rs)
    decreases |rs|
  {
    if |rs| > 0 {
      MaxCountIsMax(rs[1..]);
      forall i | 0 < i < |rs|
        ensures rs[i].count <= MaxCount(rs)
      {
        assert rs[i] == rs[1..][i - 1];
      }
      if MaxCount(rs) != 0 && MaxCount(rs) != rs[0].count {
        var j :| 0 <= j < |rs[1..]| && rs[1..][j].count == MaxCount(rs[1..]);
        assert rs[j + 1].count == MaxCount(rs);
      }
    }
  }

  /** A fresh account: hash of the password, no sessions, zero aggregates. */
  function NewUser(hash: string -> string, password: string, name: string, now: int): (u: User)
    ensures Valid(u)
    ensures u.records == [] && u.totalPushups == 0 && u.bestSession == 0
    ensures u.passwordHash == hash(password)
  {
    User(hash(password), name, now, [], 0, 0)
  }

  datatype Registered = Registered(store: Store, ok: bool, message: string)

  /** `register`: empty fields first, then duplicates, else a new entry. */
  function Register(s: Store, hash: string -> string, now: int,
                    username: string, password: string, name: string): (r: Registered)
    ensures username == [] || password == [] ==> r == Registered(s, false, MsgEmpty)
    ensures username != [] && password != [] && username in s ==>
              r == Registered(s, false, MsgExists)
    ensures r.ok <==> username != [] && password != [] && username !in s
    ensures r.ok ==> r.message == MsgRegistered
    ensures r.ok ==> r.store.Keys == s.Keys + {username}
    ensures r.ok ==> r.store[username] == NewUser(hash, password, name, now)
    ensures forall k :: k in s ==> k in r.store && r.store[k] == s[k]
    ensures ValidStore(s) ==> ValidStore(r.store)
  {
    if username == [] || password == [] then Registered(s, false, MsgEmpty)
    else if username in s then Registered(s, false, MsgExists)
    else Registered(s[username := NewUser(hash, password, name, now)], true, MsgRegistered)
  }

  /** `authenticate`: the user exists and the stored hash is the hash of
      the supplied password. */
  function Authenticate(s: Store, hash: string -> string, username: string, password: string): (ok: bool)
    ensures username !in s ==> !ok
  {
    username in s && s[username].passwordHash == hash(password)
  }

  /** A password registered is a password accepted. */
  lemma RegisterThenAuthenticate(s: Store, hash: string -> string, now: int,
                                 username: string, password: string, name: string)
    requires Register(s, hash, now, username, password, name).ok
    ensures Authenticate(Register(s, hash, now, username, password, name).store,
                         hash, username, password)
  {
  }

  /** With a collision-free hash, only the registered password is accepted. */
  lemma RegisterRejectsOtherPassword(s: Store, hash: string -> string, now: int,
                                     username: string, password: string, name: string,
                                     other: string)
    requires forall p, q :: hash(p) == hash(q) ==> p == q
    requires Register(s, hash, now, username, password, name).ok
    requires other != password
    ensures !Authenticate(Register(s, hash, now, username, password, name).store,
                          hash, username, other)
  {
  }

  /** Registering someone else does not change who can log in as whom. */
  lemma RegisterKeepsLogins(s: Store, hash: string -> string, now: int,
                            username: string, password: string, name: string,
                            who: string, pw: string)
    requires who in s
    ensures Authenticate(Register(s, hash, now, username, password, name).store, hash, who, pw)
         == Authenticate(s, hash, who, pw)
  {
  }

  /** `get_user_info`; `None` stands for the empty dictionary returned for
      an unknown user. */
  function GetUserInfo(s: Store, username: string): (r: Option<User>)
    ensures r.Some? <==> username in s
    ensures r.Some? ==> r.value == s[username]
  {
    if username in s then Some(s[username]) else None
  }

  /** After a successful registration the new user's information is the
      fresh account, and everyone else's is as before. */
  lemma GetUserInfoAfterRegister(s: Store, hash: string -> string, now: int,
                                 username: string, password: string, name: string, who: string)
    ensures var reg := Register(s, hash, now, username, password, name);
            && (reg.ok ==> GetUserInfo(reg.store, username) == Some(NewUser(hash, password, name, now)))
            && (who != username ==> GetUserInfo(reg.store, who) == GetUserInfo(s, who))
  {
  }

  datatype Added = Added(store: Store, ok: bool)

  /** `add_pushup_record`: appends a session stamped `now` and updates the
      total and the best session. */
  function AddPushupRecord(s: Store, username: string, count: int, now: int,
                           duration: Option<int>): (r: Added)
    ensures username !in s ==> r == Added(s, false)
    ensures r.ok <==> username in s
    ensures r.store.Keys == s.Keys
    ensures r.ok ==>
              && r.store[username].records == s[username].records + [Record(count, now, duration)]
              && r.store[username].totalPushups == s[username].totalPushups + count
              && r.store[username].bestSession == Max(s[username].bestSession, count)
              && r.store[username].passwordHash == s[username].passwordHash
              && r.store[username].name == s[username].name
              && r.store[username].createdAt == s[username].createdAt
    ensures forall k :: k in s && k != username ==> r.store[k] == s[k]
  {
    if username !in s then Added(s, false)
    else
      var u := s[username];
      var u' := u.(records := u.records + [Record(count, now, duration)],
                   totalPushups := u.totalPushups + count,
                   bestSession := Max(u.bestSession, count));
      Added(s[username := u'], true)
  }

  /** Adding a session keeps the total equal to the sum of the counts and
      the best session equal to their maximum. */
  lemma AddPushupRecordValid(s: Store, username: string, count: int, now: int,
                             duration: Option<int>)
    requires ValidStore(s)
    ensures ValidStore(AddPushupRecord(s, username, count, now, duration).store)
  {
    if username in s {
      var u := s[username];
      SumCountsAppend(u.records, Record(count, now, duration));
      MaxCountAppend(u.records, Record(count, now, duration));
    }
  }

  /** The sessions are ordered newest first. */
  ghost predicate SortedDesc(rs: seq<Record>)
  {
    forall i, j :: 0 <= i < j < |rs| ==> rs[i].date >= rs[j].date
  }

  /** A session no older than every session of a newest-first list can
      go in front of it. */
  lemma ConsSorted(x: Record, rest: seq<Record>)
    requires SortedDesc(rest)
    requires forall k :: 0 <= k < |rest| ==> rest[k].date <= x.date
    ensures SortedDesc([x] + rest)
  {
    var out := [x] + rest;
    forall i, j | 0 <= i < j < |out|
      ensures out[i].date >= out[j].date
    {
      assert out[j] == rest[j - 1];
      if i > 0 {
        assert out[i] == rest[i - 1];
      }
    }
  }

  /** Places `r` before the first session no newer than it, so that among
      sessions with the same date the original order is kept. */
  function Insert(r: Record, sorted: seq<Record>): (out: seq<Record>)
    requires SortedDesc(sorted)
    ensures SortedDesc(out)
    ensures multiset(out) == multiset(sorted) + multiset{r}
    ensures |out| == |sorted| + 1
    ensures forall x :: x in out ==> x == r || x in sorted
    decreases |sorted|
  {
    if |sorted| == 0 || sorted[0].date <= r.date then
      ConsSorted(r, sorted);
      [r] + sorted
    else
      var rest := Insert(r, sorted[1..]);
      assert sorted == [sorted[0]] + sorted[1..];
      forall k | 0 <= k < |rest|
        ensures rest[k].date <= sorted[0].date
      {
        var x := rest[k];
        if x != r {
          assert x in sorted[1..];
          var j :| 0 <= j < |sorted[1..]| && sorted[1..][j] == x;
          assert sorted[j + 1] == x;
        }
      }
      ConsSorted(sorted[0], rest);
      [sorted[0]] + rest
  }

  /** `sorted(records, key=date, reverse=True)` as an insertion sort. */
  function SortByDateDesc(rs: seq<Record>): (out: seq<Record>)
    ensures SortedDesc(out)
    ensures multiset(out) == multiset(rs)
    ensures |out| == |rs|
    decreases |rs|
  {
    if |rs| == 0 then []
    else
      assert rs == [rs[0]] + rs[1..];
      Insert(rs[0], SortByDateDesc(rs[1..]))
  }

  function Min(a: nat, b: nat): nat
  {
    if a <= b then a else b
  }

  /** The ten newest sessions, newest first. */
  function Recent(rs: seq<Record>): (out: seq<Record>)
    ensures |out| == Min(RecentLimit, |rs|)
    ensures SortedDesc(out)
    ensures multiset(out) <= multiset(rs)
    ensures forall x, k :: x in multiset(rs) - multiset(out) && 0 <= k < |out| ==>
              x.date <= out[k].date
  {
    var sorted := SortByDateDesc(rs);
    var n := Min(RecentLimit, |rs|);
    TopOfSorted(sorted, n);
    sorted[..n]
  }

  /** A prefix of a newest-first list holds sessions no older than any
      session left out. */
  lemma TopOfSorted(sorted: seq<Record>, n: nat)
    requires SortedDesc(sorted) && n <= |sorted|
    ensures SortedDesc(sorted[..n])
    ensures multiset(sorted[..n]) <= multiset(sorted)
    ensures forall x, k :: x in multiset(sorted) - multiset(sorted[..n]) && 0 <= k < n ==>
              x.date <= sorted[k].date
  {
    assert sorted == sorted[..n] + sorted[n..];
    assert multiset(sorted) == multiset(sorted[..n]) + multiset(sorted[n..]);
    forall x, k | x in multiset(sorted) - multiset(sorted[..n]) && 0 <= k < n
      ensures x.date <= sorted[k].date
    {
      assert x in multiset(sorted[n..]);
      var j :| 0 <= j < |sorted[n..]| && sorted[n..][j] == x;
      assert sorted[n + j] == x;
    }
  }

  /** What `get_user_statistics` returns. `average` is the exact quotient;
      the source rounds it to one decimal. */
  datatype Stats = Stats(totalPushups: int, totalSessions: nat, bestSession: int,
                         average: real, recent: seq<Record>)

  /** `get_user_statistics`: `None` for an unknown user, zeros for a user
      without sessions, otherwise the stored aggregates, the session count,
      their ratio and the newest sessions. */
  function GetUserStatistics(s: Store, username: string): (r: Option<Stats>)
    ensures username !in s <==> r.None?
    ensures username in s ==>
              var rs := s[username].records;
              && r.Some?
              && r.value.totalSessions == |rs|
              && (rs == [] ==> r.value == Stats(0, 0, 0, 0.0, []))
              && r.value.recent == Recent(rs)
              && (rs != [] ==>
                    r.value.totalPushups == s[username].totalPushups
                    && r.value.bestSession == s[username].bestSession)
              && (Valid(s[username]) ==>
                    r.value.totalPushups == SumCounts(rs) && r.value.bestSession == MaxCount(rs))
    ensures r.Some? && r.value.totalSessions > 0 ==>
              r.value.average == (r.value.totalPushups as real) / (r.value.totalSessions as real)
  {
    if username !in s then None
    else
      var u := s[username];
      if |u.records| == 0 then Some(Stats(0, 0, 0, 0.0, []))
      else
        var n := |u.records|;
        var average := (u.totalPushups as real) / (n as real);
        Some(Stats(u.totalPushups, n, u.bestSession, average, Recent(u.records)))
  }

  /** The recorded scenario: sessions of 15, 20 and 10 give a total of 45
      over three sessions, a best of 20 and an average of 15. */
  lemma ThreeSessionsFixture(hash: string -> string, t0: int, t1: int, t2: int, t3: int)
    ensures
      var s0 := Register(map[], hash, t0, "test_user", "password123", "").store;
      var s1 := AddPushupRecord(s0, "test_user", 15, t1, None).store;
      var s2 := AddPushupRecord(s1, "test_user", 20, t2, None).store;
      var s3 := AddPushupRecord(s2, "test_user", 10, t3, None).store;
      var st := GetUserStatistics(s3, "test_user");
      && st.Some?
      && st.value.totalPushups == 45
      && st.value.totalSessions == 3
      && st.value.bestSession == 20
      && st.value.average == 15.0
  {
    var u := "test_user";
    var s0 := Register(map[], hash, t0, u, "password123", "").store;
    assert u in s0 && s0[u].totalPushups == 0 && s0[u].bestSession == 0 && s0[u].records == [];
    var s1 := AddPushupRecord(s0, u, 15, t1, None).store;
    assert u in s1 && s1[u].totalPushups == 15 && s1[u].bestSession == 15 && |s1[u].records| == 1;
    var s2 := AddPushupRecord(s1, u, 20, t2, None).store;
    assert u in s2 && s2[u].totalPushups == 35 && s2[u].bestSession == 20 && |s2[u].records| == 2;
    var s3 := AddPushupRecord(s2, u, 10, t3, None).store;
    assert u in s3 && s3[u].totalPushups == 45 && s3[u].bestSession == 20 && |s3[u].records| == 3;
    assert 45.0 / 3.0 == 15.0;
  }
}
